=== FILE: README.md ===
# Pull requests of github3.py, modelled in Dafny

This project models the local bookkeeping of the `github3.pulls` module:
how a pull request and its parts are built from the JSON the GitHub API
returns, how the links map is derived from the API URL, and what the
mutating actions (`update`, `close`, `reopen`, `merge`) send and do to the
object. The HTTP exchange itself is outside the model. The request an
action would send is a function of its arguments. The decoded reply is a
parameter of type `Option<JsonMap>`, where `None` means the transport gave
no JSON.

Files and modules:

- `json.dfy` (`JsonModel`): decoded JSON values, Python's `dict.get` with
  and without a default (`Get`, `GetOr`), Python truthiness (`Truthy`), and
  the exceptions the code can raise (`Result`, `Error`).
- `issue_urls.dfy` (`IssueUrls`): `str.replace('pulls', 'issues')` as
  `PullsToIssues`, with lemmas about what it does.
- `records.dfy` (`Records`): `PullDestination`, `PullFile` and
  `ReviewComment`, their decoders, and the JSON shape each decodes from.
- `pull_request.dfy` (`PullRequests`): the `PullRequest` record,
  `Construct` (the constructor) and `Links`, and the round trip through
  `Serialize`.
- `mutations.dfy` (`Mutations`): `Update`, `Close`, `Reopen` and `Merge`
  as pure state transitions.

Conventions:

- `JNull` stands for Python's `None`.
- A failed step yields `Err` with the kind of exception Python would raise:
  `AttributeError` names the missing attribute and `KeyError` names the
  missing key.
- The regular expression that splits the issue URL into `(owner,
  repository)` is a parameter `pattern: string -> Option<(string, string)>`.
  The model fixes only what happens around it. An issue URL that is not a
  string raises `TypeError`. A non-match raises `AttributeError('groups')`.
  A match yields the pair.

Three facts about the code that the model makes explicit:

- `str.replace('pulls', 'issues')` at lines 161-163 replaces every
  occurrence, not only the path segment. A repository named `pulls-app`
  therefore gets `issues-app` in its issue links. `PullsToIssuesSplice`
  states the general rule and `PullsInRepositoryName` this instance.
- `merge` stores the `sha` of whatever `_json` returns and never reads the
  status (lines 301-303). It raises only when the reply or one of its two
  keys is missing.
- `close` and `reopen` send their update unconditionally (lines 225 and
  317). No `open → closed → merged` order is enforced locally; any refusal
  is the server's.

## Model

| member | source | states |
|---|---|---|
| IssueUrls.PullsToIssuesIdentity | github3/pulls.py:161-163 | the issue URL equals the API URL when `"pulls"` does not occur in it |
| IssueUrls.PullsToIssuesSplitsAtSlash | github3/pulls.py:161-163 | no occurrence of `"pulls"` spans a `/`, so the rewrite acts on each side of a slash independently |
| IssueUrls.PullsToIssuesSplice | github3/pulls.py:161-163 | every occurrence is replaced wherever it sits: a `"pulls"` between any two strings becomes `"issues"`, and the text on either side is rewritten independently |
| IssueUrls.PullsInRepositoryName | github3/pulls.py:161-163 | a `"pulls"` inside a path segment is rewritten too: `pulls-app` becomes `issues-app` |
| IssueUrls.PullsToIssuesLeavesNoPulls | github3/pulls.py:161-163 | after the rewrite no `"pulls"` is left; text produced by replacement never combines with its neighbours into a new occurrence |
| PullRequests.Links | github3/pulls.py:159-166 | the links map has exactly the keys self, comments, issue, html and review_comments |
| PullRequests.IssueUrlOfCanonicalUrl | github3/pulls.py:149-163 | for an API URL `<repo URL>/pulls/<n>`, the issue URL is `<repo URL with every pulls rewritten>/issues/<n>` |
| PullRequests.LinksOfCanonicalUrl | github3/pulls.py:146-166 | for an API URL of the documented shape: self is the API URL; issue is `.../issues/<n>`; comments is the issue URL plus `/comments`; review_comments is the API URL plus `/comments`; html is `html_url` |
| PullRequests.IssueLinksHaveNoPulls | github3/pulls.py:161-163 | the issue link contains no `"pulls"`, and the comments link is the issue link plus `/comments` |
| Records.RepoPair | github3/pulls.py:43-48 | the repository pair is `('', '')` when `repo` is falsy, otherwise `(repo.owner.login, repo.name)`; a non-object repo or owner raises AttributeError and a missing owner raises KeyError |
| Records.Destination | github3/pulls.py:29-48 | a destination needs an object and a readable repo; it keeps the direction given; ref, label and sha are the JSON values; the repository pair is the one `RepoPair` reads; the user is the JSON user, absent exactly when that is falsy |
| Records.DestinationIsValid | github3/pulls.py:29-48 | every decoded destination carries the requested direction and a user only when it is truthy |
| Records.RepoRoundTrip | github3/pulls.py:43-48 | reading the `(owner, name)` pair back from the `repo` object it describes gives the pair, and the empty pair comes from a missing repo |
| Records.DestinationRoundTrip | github3/pulls.py:29-48 | decoding a destination's own JSON gives the destination back |
| Records.FileRoundTrip | github3/pulls.py:59-78 | decoding a file entry's own JSON gives the entry back |
| Records.FileJsonKeys | github3/pulls.py:59-78 | a file entry is written under exactly the nine keys it is read from |
| Records.FileOfMissingKeys | github3/pulls.py:59-78 | each of the nine keys that is missing from a file entry's JSON reads as None, and the others keep their values |
| Records.FileOfReadsOnlyFileKeys | github3/pulls.py:62-78 | a file entry depends only on those nine keys; any other key in the JSON is ignored |
| Records.CommentOf | github3/pulls.py:357-381 | a review comment's position is the JSON position when that is truthy and 0 when it is absent or falsy, so never None; its user is absent exactly when the JSON user is falsy, and otherwise is that JSON user; original_position, path, commit_id, diff_hunk and original_commit_id are the JSON values, whatever other keys the JSON carries |
| Records.CommentOfMissingKeys | github3/pulls.py:357-381 | in a review comment's JSON, a missing user gives no user, a missing position gives 0, and any other missing key reads as None; the fields that remain keep their values |
| Records.CommentRoundTrip | github3/pulls.py:357-381 | decoding a review comment's own JSON gives the comment back |
| PullRequests.Construct | github3/pulls.py:99-211 | construction succeeds exactly when both destinations decode, the API URL is a string, and the issue URL is a string the pattern matches; failures are reported in source order; on success the API URL is `url` (default `''`), the links derive from it, base and head are the decoded destinations, the issue URL is the input's, `merged_by` is None exactly when falsy, and the repository is the match of that issue URL |
| PullRequests.ConstructDefaults | github3/pulls.py:101-209 | absent fields take the per-field defaults: `''` for url, bodies, mergeable_state and merge_commit_sha; False for mergeable; None for merged_by, the templates, title and state; the raw None for user |
| PullRequests.ConstructCopiesFields | github3/pulls.py:101-211 | on any payload, whatever other keys it carries, each field is read from the JSON as the constructor reads it: the bodies, mergeable_state and merge_commit_sha with default `''`, mergeable with default False, the templates only when truthy, user and assignee wrapped when truthy, every other field by a plain `get` |
| PullRequests.ConstructIsWellFormed | github3/pulls.py:99-211 | every constructed pull request is well formed: links derived from its API URL, optional parts present only when truthy, and repository equal to the match of its issue URL |
| PullRequests.SerializeRoundTrip | github3/pulls.py:99-211 | constructing a well-formed pull request from its own JSON gives it back |
| PullRequests.ReconstructionIsIdempotent | github3/pulls.py:216-217 | re-running the constructor on a constructed pull request's JSON yields the same pull request |
| Mutations.UpdateRequest | github3/pulls.py:328-330 | the payload holds exactly the keys among title, body and state whose argument is not None, each mapped to its argument; nothing is sent when all three are None |
| Mutations.Update | github3/pulls.py:319-338 | no request means False and no change; a missing or empty reply means False and no change; otherwise the result is True and the object is rebuilt from the reply, or the constructor's exception is raised |
| Mutations.Close | github3/pulls.py:219-225 | close is update with the current title and body and state `'closed'`, and always sends a payload whose state is `'closed'` |
| Mutations.Reopen | github3/pulls.py:311-317 | reopen is update with the current title and body and state `'open'`, and always sends a payload whose state is `'open'` |
| Mutations.UpdatePreservesWellFormed | github3/pulls.py:332-338 | an update keeps a well-formed pull request well formed |
| Mutations.UpdateWithOwnSnapshot | github3/pulls.py:332-338 | when the reply is the pull request's own JSON, the update reports True and the pull request is unchanged |
| Mutations.MergeRequest | github3/pulls.py:297-299 | the merge carries `{commit_message}` exactly when the message is non-empty |
| Mutations.Merge | github3/pulls.py:289-303 | merge succeeds exactly when the reply has `sha` and `merged`; it stores `sha` as the merge-commit SHA, returns `merged`, and changes no other field; a missing reply raises TypeError and a missing key raises KeyError |
| Mutations.MergePreservesWellFormed | github3/pulls.py:300-303 | a merge keeps a well-formed pull request well formed |
| Mutations.MergeConflictReply | github3/pulls.py:301-303 | the reply `{"sha": "abc123", "merged": false}` stores `abc123` and reports False |

## Left out

- HTTP transport is not modelled: `_get`, `_put`, `_patch`, `_json`, `_boolean`, `_build_url` and the session live in a module that is not part of this model. Replies are parameters, and requests are the payloads the actions would send. `_remove_none` is modelled as dropping `None` values, which is what its use here requires.
- `is_merged`, `diff` and `patch` are not modelled. Their meaning rests entirely on `_boolean`'s status handling, which is not part of this model.
- `iter_comments`, `iter_commits`, `iter_files` and `iter_issue_comments` are not modelled. Each is a single call into the paginating `_iter`, which is not part of this model.
- `@requires_auth` is not modelled. It is a decorator from a module that is not part of this model.
- The timestamps `closed_at`, `created_at`, `merged_at` and `updated_at` are not in the record. They go through `_strptime`, whose date parsing is not part of this model.
- `labels_urlt` and `review_comment_url` are kept as the JSON template, present only when truthy. Expansion belongs to the external `uritemplate` library.
- PullRequests.Construct: the regular expression at lines 192-195 is a parameter rather than a definition. Its Python backtracking semantics are not modelled. Only its failure modes are: a non-string URL raises TypeError, and a non-match raises AttributeError.
- PullRequests.Construct: line 137 (labels) is not modelled. `Label` is never imported there, so the line raises for any non-empty label list, and a missing `labels` key raises TypeError. The model behaves as if the line were absent, so it accepts inputs the source rejects.
- Nested users are kept as their JSON. `User`, `Commit` and `IssueComment` are classes from modules that are not part of this model.
- The base-class constructors (`GitHubCore`, `GitHubObject`, `BaseComment`) are not modelled, and neither are the fields they set, such as a comment's id and body. Their modules are not part of this model.
- `_repr` string formatting is not modelled.
- Mutations.Merge: when the reply has `sha` but no `merged`, the source has already overwritten `merge_commit_sha` when it raises. The model reports only the exception.
- Mutations.Update: when reconstruction raises, the source object is left partly re-initialised. The model reports only the exception.
- JSON numbers are integers only. Floats (and the falsiness of `0.0`) are not modelled.
- Mutations.MergeRequest: the commit message is a string. A `None` or non-string message, which Python would also accept, is not modelled.

=== FILE: issue_urls.dfy ===
/** The rewrite that turns a pull request's API URL into the URL of its
    issue: Python's `str.replace('pulls', 'issues')`, which replaces every
    non-overlapping occurrence, scanning from the left.
 */
module IssueUrls {

  /** True when `"pulls"` starts at index `k` of `s`. */
  predicate PullsAt(s: string, k: int) {
    0 <= k && k + 5 <= |s| && s[k..k + 5] == "pulls"
  }

  /** `"pulls"` occurs nowhere in `s`. */
  predicate NoPulls(s: string) {
    forall k :: 0 <= k < |s| ==> !PullsAt(s, k)
  }

  /** `s.replace('pulls', 'issues')`. */
  function PullsToIssues(s: string): string
    decreases |s|
  {
    if |s| < 5 then s
    else if s[..5] == "pulls" then "issues" + PullsToIssues(s[5..])
    else [s[0]] + PullsToIssues(s[1..])
  }

  /** A string in which `"pulls"` does not occur is left as it is. */
  lemma {:induction false} PullsToIssuesIdentity(s: string)
    requires NoPulls(s)
    ensures PullsToIssues(s) == s
    decreases |s|
  {
    if |s| >= 5 {
      assert !PullsAt(s, 0);
      forall k | 0 <= k < |s[1..]|
        ensures !PullsAt(s[1..], k)
      {
        if k + 5 <= |s[1..]| {
          assert s[1..][k..k + 5] == s[k + 1..k + 6];
          assert !PullsAt(s, k + 1);
        }
      }
      PullsToIssuesIdentity(s[1..]);
      assert [s[0]] + s[1..] == s;
    }
  }

  /** No occurrence of `"pulls"` can contain a `/`, so the rewrite acts on
      each side of a slash independently. */
  lemma {:induction false} PullsToIssuesSplitsAtSlash(a: string, b: string)
    ensures PullsToIssues(a + "/" + b) == PullsToIssues(a) + "/" + PullsToIssues(b)
    decreases |a|
  {
    var s := a + "/" + b;
    if |a| < 5 {
      ShortPrefixBeforeSlash(a, b);
    } else {
      assert s[..5] == a[..5];
      if a[..5] == "pulls" {
        assert s[5..] == a[5..] + "/" + b;
        PullsToIssuesSplitsAtSlash(a[5..], b);
      } else {
        assert s[1..] == a[1..] + "/" + b;
        PullsToIssuesSplitsAtSlash(a[1..], b);
      }
    }
  }

  /** Every occurrence is replaced, wherever it sits: a `"pulls"` between
      any two strings becomes `"issues"`, and each side is rewritten on its
      own. No occurrence can straddle the left edge of the inserted
      `"pulls"`, because no proper suffix of `"pulls"` is a prefix of it. */
  lemma {:induction false} PullsToIssuesSplice(x: string, y: string)
    ensures PullsToIssues(x + "pulls" + y) == PullsToIssues(x) + "issues" + PullsToIssues(y)
    decreases |x|
  {
    if |x| == 0 {
      assert x + "pulls" + y == "pulls" + y;
      ReplacedAtFront("pulls" + y);
      assert ("pulls" + y)[5..] == y;
    } else if |x| < 5 || x[..5] != "pulls" {
      PullsToIssuesSplice(x[1..], y);
      SpliceKeepsHead(x, y);
    } else {
      PullsToIssuesSplice(x[5..], y);
      SpliceReplacesHead(x, y);
    }
  }

  /** The splice step when `x` does not start with `"pulls"`: its first
      character is kept on both sides. */
  lemma SpliceKeepsHead(x: string, y: string)
    requires 0 < |x| && (|x| < 5 || x[..5] != "pulls")
    requires PullsToIssues(x[1..] + "pulls" + y) == PullsToIssues(x[1..]) + "issues" + PullsToIssues(y)
    ensures PullsToIssues(x + "pulls" + y) == PullsToIssues(x) + "issues" + PullsToIssues(y)
  {
    var s := x + "pulls" + y;
    assert s[1..] == x[1..] + "pulls" + y;
    assert s[0] == x[0];
    if |x| < 5 {
      SpliceWindowMisses(x, y);
      assert PullsToIssues(x[1..]) == x[1..];
      assert PullsToIssues(x) == x;
    } else {
      assert s[..5] == x[..5];
      KeptAtFront(x);
    }
    KeptAtFront(s);
  }

  /** The splice step when `x` starts with `"pulls"`: it is replaced on
      both sides. */
  lemma SpliceReplacesHead(x: string, y: string)
    requires |x| >= 5 && x[..5] == "pulls"
    requires PullsToIssues(x[5..] + "pulls" + y) == PullsToIssues(x[5..]) + "issues" + PullsToIssues(y)
    ensures PullsToIssues(x + "pulls" + y) == PullsToIssues(x) + "issues" + PullsToIssues(y)
  {
    var s := x + "pulls" + y;
    assert s[..5] == x[..5];
    assert s[5..] == x[5..] + "pulls" + y;
    ReplacedAtFront(s);
    ReplacedAtFront(x);
  }

  /** One step of the scan when `"pulls"` starts the string. */
  lemma ReplacedAtFront(s: string)
    requires |s| >= 5 && s[..5] == "pulls"
    ensures PullsToIssues(s) == "issues" + PullsToIssues(s[5..])
  {
  }

  /** One step of the scan when it does not. */
  lemma KeptAtFront(s: string)
    requires |s| >= 5 && s[..5] != "pulls"
    ensures PullsToIssues(s) == [s[0]] + PullsToIssues(s[1..])
  {
  }

  /** A repository name that contains `pulls` is rewritten too: together
      with `IssueUrlOfCanonicalUrl`, the issue URL of a pull request of
      `pulls-app` names `issues-app`. */
  lemma PullsInRepositoryName()
    ensures PullsToIssues("pulls-app") == "issues-app"
  {
    PullsToIssuesSplice("", "-app");
    assert "" + "pulls" + "-app" == "pulls-app";
  }

  /** With a short non-empty `x` in front, the first five characters of
      `x + "pulls" + y` are not `"pulls"`: the inserted `p` lands where
      `"pulls"` has another letter. */
  lemma SpliceWindowMisses(x: string, y: string)
    requires 0 < |x| < 5
    ensures |x + "pulls" + y| >= 5 && (x + "pulls" + y)[..5] != "pulls"
  {
    var s := x + "pulls" + y;
    assert s[|x|] == 'p';
    assert "pulls"[|x|] != 'p';
  }

  /** The base case of the split: a prefix too short to hold `"pulls"`
      passes through unchanged, and so does the slash after it. */
  lemma {:induction false} ShortPrefixBeforeSlash(a: string, b: string)
    requires |a| < 5
    ensures PullsToIssues(a + "/" + b) == a + "/" + PullsToIssues(b)
    decreases |a|
  {
    var s := a + "/" + b;
    assert s[|a|] == '/';
    if |s| < 5 {
      assert PullsToIssues(b) == b;
    } else {
      assert s[..5] != "pulls" by { assert s[..5][|a|] == '/'; }
      assert PullsToIssues(s) == [s[0]] + PullsToIssues(s[1..]);
      if |a| == 0 {
        assert s[1..] == b;
      } else {
        assert s[1..] == a[1..] + "/" + b;
        ShortPrefixBeforeSlash(a[1..], b);
        assert [s[0]] + (a[1..] + "/" + PullsToIssues(b)) == a + "/" + PullsToIssues(b);
      }
    }
  }

  /** A rewrite that does not start with `i` (the first letter of
      `"issues"`) kept the first character of its input. */
  lemma HeadKept(t: string)
    ensures |PullsToIssues(t)| > 0 && PullsToIssues(t)[0] != 'i' ==>
              |t| > 0 && PullsToIssues(t) == [t[0]] + PullsToIssues(t[1..])
  {
    if |t| < 5 {
      assert |t| > 0 ==> t == [t[0]] + t[1..];
    }
  }

  /** If the rewrite of `t` starts with a string that has no `i`, no
      replacement happened in that prefix, so `t` starts with the same
      string. */
  lemma {:induction false} PrefixWithoutReplacement(t: string, w: string)
    requires 'i' !in w
    ensures |w| <= |PullsToIssues(t)| && PullsToIssues(t)[..|w|] == w ==>
              |w| <= |t| && t[..|w|] == w
    decreases |t|
  {
    if 0 < |w| <= |PullsToIssues(t)| && PullsToIssues(t)[..|w|] == w {
      assert w[0] in w;
      assert PullsToIssues(t)[0] == w[0];
      HeadKept(t);
      var rest := PullsToIssues(t[1..]);
      assert rest[..|w| - 1] == w[1..];
      PrefixWithoutReplacement(t[1..], w[1..]);
      assert t[..|w|] == [t[0]] + t[1..][..|w| - 1];
      assert w == [w[0]] + w[1..];
    }
  }

  /** After the rewrite no `"pulls"` is left: replaced text cannot combine
      with its neighbours into a new occurrence. */
  lemma {:induction false} PullsToIssuesLeavesNoPulls(s: string)
    ensures NoPulls(PullsToIssues(s))
    decreases |s|
  {
    var r := PullsToIssues(s);
    if |s| < 5 {
    } else if s[..5] == "pulls" {
      var rest := PullsToIssues(s[5..]);
      PullsToIssuesLeavesNoPulls(s[5..]);
      assert r == "issues" + rest;
      forall k | 0 <= k < |r|
        ensures !PullsAt(r, k)
      {
        if k + 5 > |r| {
        } else if k < 6 {
          assert r[k..k + 5][0] == "issues"[k];
        } else {
          assert r[k..k + 5] == rest[k - 6..k - 1];
          assert !PullsAt(rest, k - 6);
        }
      }
    } else {
      var rest := PullsToIssues(s[1..]);
      PullsToIssuesLeavesNoPulls(s[1..]);
      assert r == [s[0]] + rest;
      forall k | 0 <= k < |r|
        ensures !PullsAt(r, k)
      {
        if k + 5 > |r| {
        } else if k == 0 {
          PrefixWithoutReplacement(s[1..], "ulls");
          assert s[..5] == [s[0]] + s[1..][..4];
          var window := r[k..k + 5];
          assert window == [s[0]] + rest[..4];
          assert window[0] == s[0] && window[1..] == rest[..4];
          assert "pulls"[0] == 'p' && "pulls"[1..] == "ulls";
        } else {
          assert r[k..k + 5] == rest[k - 1..k + 4];
          assert !PullsAt(rest, k - 1);
        }
      }
    }
  }
}

=== FILE: json.dfy ===
/** Decoded JSON values as the pull-request code sees them, together with the
    few Python behaviours the constructors lean on: `dict.get` with and
    without a default, truthiness, and the exceptions a failed lookup raises.
 */
module JsonModel {

  /** A decoded JSON value. Numbers are integers only. */
  datatype Json =
    | JNull
    | JBool(b: bool)
    | JInt(i: int)
    | JStr(s: string)
    | JArr(items: seq<Json>)
    | JObj(fields: map<string, Json>)

  /** A decoded JSON object, i.e. a Python dict with string keys. */
  type JsonMap = map<string, Json>

  datatype Option<+T> = None | Some(value: T)

  /** The Python exceptions the modelled code can raise. `AttributeError`
      names the attribute that was missing (`get` on something that is not a
      dict, `replace` on something that is not a string, `groups` on a failed
      regular-expression match); `KeyError` names the missing key. */
  datatype Error =
    | AttributeError(attribute: string)
    | KeyError(key: string)
    | TypeError(reason: string)

  /** Either a value or the exception raised while computing it. */
  datatype Result<+T> = Ok(value: T) | Err(error: Error) {
    predicate IsFailure() {
      Err?
    }

    function PropagateFailure<U>(): Result<U>
      requires Err?
    {
      Err(error)
    }

    function Extract(): T
      requires Ok?
    {
      value
    }
  }

  /** Python truthiness: `None`, `False`, `0`, and empty strings, lists and
      dicts are false; everything else is true. */
  predicate Truthy(v: Json) {
    match v
    case JNull => false
    case JBool(b) => b
    case JInt(i) => i != 0
    case JStr(s) => |s| > 0
    case JArr(a) => |a| > 0
    case JObj(m) => m != map[]
  }

  /** `m.get(key)`: the value under `key`, or `None` when it is absent. */
  function Get(m: JsonMap, key: string): Json {
    if key in m then m[key] else JNull
  }

  /** `m.get(key, default)`: the default is used only when the key is
      absent; a key present with a `null` value yields `None`. */
  function GetOr(m: JsonMap, key: string, default: Json): Json {
    if key in m then m[key] else default
  }

  /** `X(v) if v else None`, with the wrapped object left as its JSON. */
  function IfTruthy(v: Json): Option<Json> {
    if Truthy(v) then Some(v) else None
  }

  /** The JSON an optional nested object came from (`null` when absent). */
  function OptionJson(o: Option<Json>): Json {
    match o
    case None => JNull
    case Some(v) => v
  }

  /** An optional nested object as decoding leaves it: present only when
      truthy. */
  predicate TruthyIfPresent(o: Option<Json>) {
    o.Some? ==> Truthy(o.value)
  }

  lemma IfTruthyInverse(o: Option<Json>)
    requires TruthyIfPresent(o)
    ensures IfTruthy(OptionJson(o)) == o
  {
    match o
    case None =>
    case Some(v) =>
  }
}

=== FILE: mutations.dfy ===
/** The actions that change a pull request on the server and fold the reply
    back into the local record: `update`, and its specialisations `close`
    and `reopen`, and `merge`. The HTTP exchange is not modelled: the request
    an action would send is a function of its arguments, and the decoded
    reply (`None` when the transport yields no JSON) is a parameter.
 */
module Mutations {
  import opened JsonModel
  import opened PullRequests

  /** `data` with every `None` value dropped. */
  function RemoveNone(data: JsonMap): JsonMap {
    map k | k in data && data[k] != JNull :: data[k]
  }

  /** The PATCH payload `update` sends, or `None` when it sends nothing
      because no field was supplied. `JNull` stands for Python's `None`. */
  function UpdateRequest(title: Json, body: Json, state: Json): (r: Option<JsonMap>)
    ensures r.None? <==> title == JNull && body == JNull && state == JNull
    ensures r.Some? ==> r.value.Keys <= {"title", "body", "state"}
    ensures r.Some? ==> ("title" in r.value <==> title != JNull)
    ensures r.Some? ==> ("body" in r.value <==> body != JNull)
    ensures r.Some? ==> ("state" in r.value <==> state != JNull)
    ensures r.Some? && "title" in r.value ==> r.value["title"] == title
    ensures r.Some? && "body" in r.value ==> r.value["body"] == body
    ensures r.Some? && "state" in r.value ==> r.value["state"] == state
  {
    var data := RemoveNone(map["title" := title, "body" := body, "state" := state]);
    assert title != JNull ==> "title" in data;
    assert body != JNull ==> "body" in data;
    assert state != JNull ==> "state" in data;
    if data == map[] then None else Some(data)
  }

  /** What `update` returns, and the pull request afterwards. */
  datatype Updated = Updated(changed: bool, pull: PullRequest)

  /** `update(title, body, state)` given the decoded reply to its PATCH. The
      reply is consulted only when a request is sent; a non-empty reply
      rebuilds the whole pull request from it. */
  function Update(pr: PullRequest, title: Json, body: Json, state: Json,
                  response: Option<JsonMap>, pattern: RepositoryPattern): (r: Result<Updated>)
    ensures UpdateRequest(title, body, state).None? ==> r == Ok(Updated(false, pr))
    ensures response.None? || response == Some(map[]) ==> r == Ok(Updated(false, pr))
    ensures r.Ok? && r.value.changed <==>
              && UpdateRequest(title, body, state).Some?
              && response.Some? && response.value != map[]
              && Construct(response.value, pattern).Ok?
    ensures r.Ok? && r.value.changed ==> r.value.pull == Construct(response.value, pattern).value
    ensures r.Ok? && !r.value.changed ==> r.value.pull == pr
    ensures r.Err? ==> response.Some? && Construct(response.value, pattern) == Err(r.error)
    ensures UpdateRequest(title, body, state).Some? && response.Some? && response.value != map[] &&
            Construct(response.value, pattern).Err? ==>
              r == Err(Construct(response.value, pattern).error)
  {
    var json := if UpdateRequest(title, body, state).Some? then response else None;
    match json
    case Some(reply) =>
      if reply != map[] then
        var rebuilt :- Construct(reply, pattern);
        Ok(Updated(true, rebuilt))
      else Ok(Updated(false, pr))
    case None => Ok(Updated(false, pr))
  }

  /** `close()`: an update that keeps the current title and body and sets
      the state to `"closed"`. It always sends a request. */
  function Close(pr: PullRequest, response: Option<JsonMap>, pattern: RepositoryPattern): (r: Result<Updated>)
    ensures r == Update(pr, pr.title, pr.body, JStr("closed"), response, pattern)
    ensures UpdateRequest(pr.title, pr.body, JStr("closed")).Some?
    ensures UpdateRequest(pr.title, pr.body, JStr("closed")).value["state"] == JStr("closed")
  {
    Update(pr, pr.title, pr.body, JStr("closed"), response, pattern)
  }

  /** `reopen()`: the same update with the state set to `"open"`. */
  function Reopen(pr: PullRequest, response: Option<JsonMap>, pattern: RepositoryPattern): (r: Result<Updated>)
    ensures r == Update(pr, pr.title, pr.body, JStr("open"), response, pattern)
    ensures UpdateRequest(pr.title, pr.body, JStr("open")).Some?
    ensures UpdateRequest(pr.title, pr.body, JStr("open")).value["state"] == JStr("open")
  {
    Update(pr, pr.title, pr.body, JStr("open"), response, pattern)
  }

  /** An update leaves a well-formed pull request well-formed: either nothing
      changes or the pull request is rebuilt by construction. */
  lemma UpdatePreservesWellFormed(pr: PullRequest, title: Json, body: Json, state: Json,
                                  response: Option<JsonMap>, pattern: RepositoryPattern)
    requires WellFormed(pr, pattern)
    ensures var r := Update(pr, title, body, state, response, pattern);
      r.Ok? ==> WellFormed(r.value.pull, pattern)
  {
    if response.Some? {
      ConstructIsWellFormed(response.value, pattern);
    }
  }

  /** When the server answers an update with the pull request's own JSON,
      the update reports a change and the pull request is what it was. */
  lemma UpdateWithOwnSnapshot(pr: PullRequest, title: Json, body: Json, state: Json,
                              pattern: RepositoryPattern)
    requires WellFormed(pr, pattern)
    requires UpdateRequest(title, body, state).Some?
    ensures Update(pr, title, body, state, Some(Serialize(pr)), pattern) == Ok(Updated(true, pr))
  {
    SerializeRoundTrip(pr, pattern);
    assert "url" in Serialize(pr);
  }

  /** The body of the merge PUT: the commit message, only when it is not
      empty; `None` means the PUT carries no body. */
  function MergeRequest(commitMessage: string): (r: Option<JsonMap>)
    ensures r.Some? <==> commitMessage != ""
    ensures r.Some? ==> r.value.Keys == {"commit_message"} && r.value["commit_message"] == JStr(commitMessage)
  {
    if |commitMessage| > 0 then Some(map["commit_message" := JStr(commitMessage)]) else None
  }

  /** What `merge` returns (the reply's `merged` value), and the pull
      request afterwards. */
  datatype Merged = Merged(merged: Json, pull: PullRequest)

  /** `merge(commit_message)` given the decoded reply to its PUT. The reply
      decides the outcome whatever the status: `merged` is returned as is,
      and only the merge commit SHA is taken from it. A missing reply or a
      reply without `sha` or `merged` raises. */
  function Merge(pr: PullRequest, response: Option<JsonMap>): (r: Result<Merged>)
    ensures response.None? ==> r.Err? && r.error.TypeError?
    ensures r.Ok? <==> response.Some? && "sha" in response.value && "merged" in response.value
    ensures response.Some? && "sha" !in response.value ==> r == Err(KeyError("sha"))
    ensures response.Some? && "sha" in response.value && "merged" !in response.value ==>
              r == Err(KeyError("merged"))
    ensures r.Ok? ==> r.value.merged == response.value["merged"]
    ensures r.Ok? ==> r.value.pull.mergeCommitSha == response.value["sha"]
    ensures r.Ok? ==> r.value.pull.(mergeCommitSha := pr.mergeCommitSha) == pr
  {
    match response
    case None => Err(TypeError("'NoneType' object is not subscriptable"))
    case Some(json) =>
      if "sha" !in json then Err(KeyError("sha"))
      else
        var merged := pr.(mergeCommitSha := json["sha"]);
        if "merged" !in json then Err(KeyError("merged"))
        else Ok(Merged(json["merged"], merged))
  }

  /** A merge leaves a well-formed pull request well-formed. */
  lemma MergePreservesWellFormed(pr: PullRequest, response: Option<JsonMap>, pattern: RepositoryPattern)
    requires WellFormed(pr, pattern)
    ensures Merge(pr, response).Ok? ==> WellFormed(Merge(pr, response).value.pull, pattern)
  {
  }

  /** A reply reporting a conflict: the SHA is stored and the merge reports
      `false` even though the call went through. */
  lemma MergeConflictReply(pr: PullRequest)
    ensures var r := Merge(pr, Some(map["sha" := JStr("abc123"), "merged" := JBool(false)]));
      r.Ok? && r.value.merged == JBool(false) && r.value.pull.mergeCommitSha == JStr("abc123")
  {
  }
}

=== FILE: pull_request.dfy ===
/** The pull-request record: how it is built from the JSON the API returns,
    with a default chosen field by field, and the links map it derives from
    its API URL.
 */
module PullRequests {
  import opened JsonModel
  import opened IssueUrls
  import opened Records

  /** The decomposition of an issue URL into `(owner, repository)` by the
      regular expression the constructor applies; `None` when it does not
      match. */
  type RepositoryPattern = string -> Option<(string, string)>

  /** The creator and assignee fields: wrapped as a user when the JSON value
      is truthy, otherwise the falsy value itself is kept. */
  datatype UserSlot = Raw(value: Json) | UserOf(data: Json)

  function SlotOf(v: Json): UserSlot {
    if Truthy(v) then UserOf(v) else Raw(v)
  }

  function SlotJson(slot: UserSlot): Json {
    match slot
    case Raw(v) => v
    case UserOf(d) => d
  }

  predicate ValidSlot(slot: UserSlot) {
    match slot
    case Raw(v) => !Truthy(v)
    case UserOf(d) => Truthy(d)
  }

  /** A pull request. `api` and `issueUrl` are strings because building the
      links and matching the issue URL fail on anything else; the optional
      URL templates are kept as the JSON they would be expanded from. */
  datatype PullRequest = PullRequest(
    api: string,
    base: PullDestination,
    body: Json,
    bodyHtml: Json,
    bodyText: Json,
    additions: Json,
    deletions: Json,
    comments: Json,
    commentsUrl: Json,
    commits: Json,
    commitsUrl: Json,
    diffUrl: Json,
    head: PullDestination,
    htmlUrl: Json,
    id: Json,
    labelsTemplate: Option<Json>,
    issueUrl: string,
    statusesUrl: Json,
    links: map<string, Json>,
    mergeable: Json,
    mergeableState: Json,
    mergeCommitSha: Json,
    mergedBy: Option<Json>,
    number: Json,
    patchUrl: Json,
    reviewCommentTemplate: Option<Json>,
    reviewComments: Json,
    reviewCommentsUrl: Json,
    repository: (string, string),
    state: Json,
    title: Json,
    user: UserSlot,
    assignee: UserSlot)

  /** The related URLs, rebuilt from the API URL rather than read from the
      response. */
  function Links(api: string, html: Json): (links: map<string, Json>)
    ensures links.Keys == {"self", "comments", "issue", "html", "review_comments"}
  {
    var issue := PullsToIssues(api);
    map[
      "self" := JStr(api),
      "comments" := JStr(issue + "/comments"),
      "issue" := JStr(issue),
      "html" := html,
      "review_comments" := JStr(api + "/comments")]
  }

  /** For an API URL of the documented shape `<repository URL>/pulls/<n>`,
      the issue URL is `<repository URL>/issues/<n>`, with `"pulls"` also
      rewritten inside the repository URL wherever it occurs there. */
  lemma {:induction false} IssueUrlOfCanonicalUrl(repository: string, number: string)
    requires NoPulls(number)
    ensures PullsToIssues(repository + "/pulls/" + number) ==
            PullsToIssues(repository) + "/issues/" + number
  {
    var tail := "pulls" + "/" + number;
    assert repository + "/pulls/" + number == repository + "/" + tail;
    PullsToIssuesSplitsAtSlash(repository, tail);
    PullsToIssuesSplitsAtSlash("pulls", number);
    assert PullsToIssues("pulls") == "issues" by {
      assert "pulls"[..5] == "pulls";
      assert "pulls"[5..] == "";
    }
    PullsToIssuesIdentity(number);
    assert PullsToIssues(tail) == "issues" + "/" + number;
    assert PullsToIssues(repository) + "/" + ("issues" + "/" + number) ==
           PullsToIssues(repository) + "/issues/" + number;
  }

  /** The links of a pull request whose API URL has the documented shape:
      the issue and its comments sit under `/issues/<n>`, the review
      comments under the pull URL itself. */
  lemma LinksOfCanonicalUrl(repository: string, number: string, html: Json)
    requires NoPulls(number)
    ensures var links := Links(repository + "/pulls/" + number, html);
      && links["self"] == JStr(repository + "/pulls/" + number)
      && links["issue"] == JStr(PullsToIssues(repository) + "/issues/" + number)
      && links["comments"] == JStr(PullsToIssues(repository) + "/issues/" + number + "/comments")
      && links["review_comments"] == JStr(repository + "/pulls/" + number + "/comments")
      && links["html"] == html
  {
    var api := repository + "/pulls/" + number;
    var issue := PullsToIssues(repository) + "/issues/" + number;
    IssueUrlOfCanonicalUrl(repository, number);
    var links := Links(api, html);
    assert links["issue"] == JStr(issue);
    assert links["comments"] == JStr(issue + "/comments");
  }

  /** The derived issue URLs never contain `"pulls"`. */
  lemma IssueLinksHaveNoPulls(api: string, html: Json)
    ensures Links(api, html)["issue"].JStr? && NoPulls(Links(api, html)["issue"].s)
    ensures Links(api, html)["comments"].JStr? &&
            Links(api, html)["comments"].s == Links(api, html)["issue"].s + "/comments"
  {
    PullsToIssuesLeavesNoPulls(api);
  }

  /** Builds a pull request from the JSON object the API returned. The
      steps that can raise run in the source's order: the base destination,
      the head destination, the links (the API URL must be a string), then
      the match of the issue URL (which must be a string and must match). */
  function Construct(pull: JsonMap, pattern: RepositoryPattern): (r: Result<PullRequest>)
    ensures r.Ok? <==>
              && Destination(Get(pull, "base"), "Base").Ok?
              && Destination(Get(pull, "head"), "Head").Ok?
              && GetOr(pull, "url", JStr("")).JStr?
              && Get(pull, "issue_url").JStr?
              && pattern(Get(pull, "issue_url").s).Some?
    ensures Destination(Get(pull, "base"), "Base").Err? ==>
              r == Err(Destination(Get(pull, "base"), "Base").error)
    ensures Destination(Get(pull, "base"), "Base").Ok? && Destination(Get(pull, "head"), "Head").Err? ==>
              r == Err(Destination(Get(pull, "head"), "Head").error)
    ensures Destination(Get(pull, "base"), "Base").Ok? && Destination(Get(pull, "head"), "Head").Ok? ==>
              && (!GetOr(pull, "url", JStr("")).JStr? ==> r == Err(AttributeError("replace")))
              && (GetOr(pull, "url", JStr("")).JStr? && !Get(pull, "issue_url").JStr? ==> r.Err? && r.error.TypeError?)
              && (GetOr(pull, "url", JStr("")).JStr? && Get(pull, "issue_url").JStr? &&
                    pattern(Get(pull, "issue_url").s).None?
                  ==> r == Err(AttributeError("groups")))
    ensures r.Ok? ==>
              && JStr(r.value.api) == GetOr(pull, "url", JStr(""))
              && r.value.links == Links(r.value.api, Get(pull, "html_url"))
              && JStr(r.value.issueUrl) == Get(pull, "issue_url")
              && Some(r.value.repository) == pattern(r.value.issueUrl)
              && r.value.base == Destination(Get(pull, "base"), "Base").value
              && r.value.head == Destination(Get(pull, "head"), "Head").value
              && (r.value.mergedBy.None? <==> !Truthy(Get(pull, "merged_by")))
              && (r.value.mergedBy.Some? ==> r.value.mergedBy.value == pull["merged_by"])
  {
    var api := GetOr(pull, "url", JStr(""));
    var base :- Destination(Get(pull, "base"), "Base");
    var head :- Destination(Get(pull, "head"), "Head");
    if !api.JStr? then Err(AttributeError("replace"))
    else
      var issueUrl := Get(pull, "issue_url");
      if !issueUrl.JStr? then Err(TypeError("expected string or bytes-like object"))
      else
        match pattern(issueUrl.s)
        case None => Err(AttributeError("groups"))
        case Some(repository) =>
          Ok(Assemble(pull, api.s, base, head, issueUrl.s, repository))
  }

  /** The record built once every step that can raise has succeeded. */
  function Assemble(pull: JsonMap, api: string, base: PullDestination, head: PullDestination,
                    issueUrl: string, repository: (string, string)): PullRequest
  {
    PullRequest(
      api := api,
      base := base,
      body := GetOr(pull, "body", JStr("")),
      bodyHtml := GetOr(pull, "body_html", JStr("")),
      bodyText := GetOr(pull, "body_text", JStr("")),
      additions := Get(pull, "additions"),
      deletions := Get(pull, "deletions"),
      comments := Get(pull, "comments"),
      commentsUrl := Get(pull, "comments_url"),
      commits := Get(pull, "commits"),
      commitsUrl := Get(pull, "commits_url"),
      diffUrl := Get(pull, "diff_url"),
      head := head,
      htmlUrl := Get(pull, "html_url"),
      id := Get(pull, "id"),
      labelsTemplate := IfTruthy(Get(pull, "labels_url")),
      issueUrl := issueUrl,
      statusesUrl := Get(pull, "statuses_url"),
      links := Links(api, Get(pull, "html_url")),
      mergeable := GetOr(pull, "mergeable", JBool(false)),
      mergeableState := GetOr(pull, "mergeable_state", JStr("")),
      mergeCommitSha := GetOr(pull, "merge_commit_sha", JStr("")),
      mergedBy := IfTruthy(Get(pull, "merged_by")),
      number := Get(pull, "number"),
      patchUrl := Get(pull, "patch_url"),
      reviewCommentTemplate := IfTruthy(Get(pull, "review_comment_url")),
      reviewComments := Get(pull, "review_comments"),
      reviewCommentsUrl := Get(pull, "review_comments_url"),
      repository := repository,
      state := Get(pull, "state"),
      title := Get(pull, "title"),
      user := SlotOf(Get(pull, "user")),
      assignee := SlotOf(Get(pull, "assignee")))
  }

  /** Fields absent from the response take the source's per-field defaults:
      an empty string for the bodies, the mergeable state and the merge
      commit SHA, `False` for mergeability, `None` for plain fields and for
      the optional nested objects, and an empty API URL. */
  lemma ConstructDefaults(pull: JsonMap, pattern: RepositoryPattern)
    requires Construct(pull, pattern).Ok?
    ensures var pr := Construct(pull, pattern).value;
      && ("url" !in pull ==> pr.api == "")
      && ("body" !in pull ==> pr.body == JStr(""))
      && ("body_html" !in pull ==> pr.bodyHtml == JStr(""))
      && ("body_text" !in pull ==> pr.bodyText == JStr(""))
      && ("mergeable" !in pull ==> pr.mergeable == JBool(false))
      && ("mergeable_state" !in pull ==> pr.mergeableState == JStr(""))
      && ("merge_commit_sha" !in pull ==> pr.mergeCommitSha == JStr(""))
      && ("merged_by" !in pull ==> pr.mergedBy == None)
      && ("labels_url" !in pull ==> pr.labelsTemplate == None)
      && ("review_comment_url" !in pull ==> pr.reviewCommentTemplate == None)
      && ("title" !in pull ==> pr.title == JNull)
      && ("state" !in pull ==> pr.state == JNull)
      && ("user" !in pull ==> pr.user == Raw(JNull))
  {
  }

  /** Every field of a constructed pull request is read from the JSON as
      the constructor reads it, whatever other keys (such as `_links`) the
      JSON carries: a plain `get` for most fields, `get` with a default for
      the bodies and the merge state, truthiness for the optional parts. */
  lemma ConstructCopiesFields(pull: JsonMap, pattern: RepositoryPattern)
    requires Construct(pull, pattern).Ok?
    ensures var pr := Construct(pull, pattern).value;
      && pr.body == GetOr(pull, "body", JStr(""))
      && pr.bodyHtml == GetOr(pull, "body_html", JStr(""))
      && pr.bodyText == GetOr(pull, "body_text", JStr(""))
      && pr.additions == Get(pull, "additions")
      && pr.deletions == Get(pull, "deletions")
      && pr.comments == Get(pull, "comments")
      && pr.commentsUrl == Get(pull, "comments_url")
      && pr.commits == Get(pull, "commits")
      && pr.commitsUrl == Get(pull, "commits_url")
      && pr.diffUrl == Get(pull, "diff_url")
      && pr.htmlUrl == Get(pull, "html_url")
      && pr.id == Get(pull, "id")
      && pr.labelsTemplate == IfTruthy(Get(pull, "labels_url"))
      && pr.statusesUrl == Get(pull, "statuses_url")
      && pr.mergeable == GetOr(pull, "mergeable", JBool(false))
      && pr.mergeableState == GetOr(pull, "mergeable_state", JStr(""))
      && pr.mergeCommitSha == GetOr(pull, "merge_commit_sha", JStr(""))
      && pr.number == Get(pull, "number")
      && pr.patchUrl == Get(pull, "patch_url")
      && pr.reviewCommentTemplate == IfTruthy(Get(pull, "review_comment_url"))
      && pr.reviewComments == Get(pull, "review_comments")
      && pr.reviewCommentsUrl == Get(pull, "review_comments_url")
      && pr.state == Get(pull, "state")
      && pr.title == Get(pull, "title")
      && pr.user == SlotOf(Get(pull, "user"))
      && pr.assignee == SlotOf(Get(pull, "assignee"))
  {
  }

  /** What every constructed pull request satisfies: the links are the ones
      derived from its API URL, optional parts are present only when truthy,
      and the repository pair is the match of its issue URL. */
  predicate WellFormed(pr: PullRequest, pattern: RepositoryPattern) {
    && ValidDestination(pr.base, "Base")
    && ValidDestination(pr.head, "Head")
    && pr.links == Links(pr.api, pr.htmlUrl)
    && TruthyIfPresent(pr.labelsTemplate)
    && TruthyIfPresent(pr.mergedBy)
    && TruthyIfPresent(pr.reviewCommentTemplate)
    && ValidSlot(pr.user)
    && ValidSlot(pr.assignee)
    && pattern(pr.issueUrl) == Some(pr.repository)
  }

  lemma ConstructIsWellFormed(pull: JsonMap, pattern: RepositoryPattern)
    ensures Construct(pull, pattern).Ok? ==> WellFormed(Construct(pull, pattern).value, pattern)
  {
    DestinationIsValid(Get(pull, "base"), "Base");
    DestinationIsValid(Get(pull, "head"), "Head");
  }

  /** The JSON object a pull request is built from (the links are not part
      of it: they are derived). */
  function Serialize(pr: PullRequest): JsonMap {
    map[
      "url" := JStr(pr.api),
      "base" := DestinationJson(pr.base),
      "body" := pr.body,
      "body_html" := pr.bodyHtml,
      "body_text" := pr.bodyText,
      "additions" := pr.additions,
      "deletions" := pr.deletions,
      "comments" := pr.comments,
      "comments_url" := pr.commentsUrl,
      "commits" := pr.commits,
      "commits_url" := pr.commitsUrl,
      "diff_url" := pr.diffUrl,
      "head" := DestinationJson(pr.head),
      "html_url" := pr.htmlUrl,
      "id" := pr.id,
      "labels_url" := OptionJson(pr.labelsTemplate),
      "issue_url" := JStr(pr.issueUrl),
      "statuses_url" := pr.statusesUrl,
      "mergeable" := pr.mergeable,
      "mergeable_state" := pr.mergeableState,
      "merge_commit_sha" := pr.mergeCommitSha,
      "merged_by" := OptionJson(pr.mergedBy),
      "number" := pr.number,
      "patch_url" := pr.patchUrl,
      "review_comment_url" := OptionJson(pr.reviewCommentTemplate),
      "review_comments" := pr.reviewComments,
      "review_comments_url" := pr.reviewCommentsUrl,
      "state" := pr.state,
      "title" := pr.title,
      "user" := SlotJson(pr.user),
      "assignee" := SlotJson(pr.assignee)]
  }

  /** Building a well-formed pull request from its own JSON gives it back. */
  lemma SerializeRoundTrip(pr: PullRequest, pattern: RepositoryPattern)
    requires WellFormed(pr, pattern)
    ensures Construct(Serialize(pr), pattern) == Ok(pr)
  {
    var m := Serialize(pr);
    ReadBackUrlBaseBody(pr);
    ReadBackHeadHtmlId(pr);
    ReadBackLabelsIssueStatuses(pr);
    DestinationRoundTrip(pr.base);
    DestinationRoundTrip(pr.head);
    ConstructFromParts(m, pattern, pr.api, pr.base, pr.head, pr.issueUrl, pr.repository);
    AssembleRoundTrip(pr);
  }

  /** Rebuilding a constructed pull request from its own JSON gives the
      same pull request: construction is idempotent, as `_update_` relies
      on when it re-runs the constructor on a fresh reply. */
  lemma ReconstructionIsIdempotent(pull: JsonMap, pattern: RepositoryPattern)
    requires Construct(pull, pattern).Ok?
    ensures Construct(Serialize(Construct(pull, pattern).value), pattern) == Construct(pull, pattern)
  {
    ConstructIsWellFormed(pull, pattern);
    SerializeRoundTrip(Construct(pull, pattern).value, pattern);
  }

  /** Once each step that can raise succeeds, construction yields the
      assembled record. */
  lemma ConstructFromParts(pull: JsonMap, pattern: RepositoryPattern, api: string,
                           base: PullDestination, head: PullDestination,
                           issueUrl: string, repository: (string, string))
    requires Destination(Get(pull, "base"), "Base") == Ok(base)
    requires Destination(Get(pull, "head"), "Head") == Ok(head)
    requires GetOr(pull, "url", JStr("")) == JStr(api)
    requires Get(pull, "issue_url") == JStr(issueUrl)
    requires pattern(issueUrl) == Some(repository)
    ensures Construct(pull, pattern) == Ok(Assemble(pull, api, base, head, issueUrl, repository))
  {
  }

  /** Every field read back from a well-formed pull request's JSON is the
      field it was written from. */
  lemma AssembleRoundTrip(pr: PullRequest)
    requires pr.links == Links(pr.api, pr.htmlUrl)
    requires TruthyIfPresent(pr.labelsTemplate)
    requires TruthyIfPresent(pr.mergedBy)
    requires TruthyIfPresent(pr.reviewCommentTemplate)
    requires ValidSlot(pr.user) && ValidSlot(pr.assignee)
    ensures Assemble(Serialize(pr), pr.api, pr.base, pr.head, pr.issueUrl, pr.repository) == pr
  {
    ReadBackUrlBaseBody(pr);
    ReadBackBodyFormatsAdditions(pr);
    ReadBackDeletionsComments(pr);
    ReadBackCommitsDiff(pr);
    ReadBackHeadHtmlId(pr);
    ReadBackLabelsIssueStatuses(pr);
    ReadBackMergeability(pr);
    ReadBackMergedByNumberPatch(pr);
    ReadBackReviewComments(pr);
    ReadBackStateTitleUser(pr);
    ReadBackAssignee(pr);
    IfTruthyInverse(pr.labelsTemplate);
    IfTruthyInverse(pr.mergedBy);
    IfTruthyInverse(pr.reviewCommentTemplate);
    assert SlotOf(SlotJson(pr.user)) == pr.user;
    assert SlotOf(SlotJson(pr.assignee)) == pr.assignee;
  }

  /* Each of the lemmas below reads a few keys back from `Serialize`. */

  lemma ReadBackUrlBaseBody(pr: PullRequest)
    ensures var m := Serialize(pr);
      && GetOr(m, "url", JStr("")) == JStr(pr.api)
      && Get(m, "base") == DestinationJson(pr.base)
      && GetOr(m, "body", JStr("")) == pr.body
  {
  }

  lemma ReadBackBodyFormatsAdditions(pr: PullRequest)
    ensures var m := Serialize(pr);
      && GetOr(m, "body_html", JStr("")) == pr.bodyHtml
      && GetOr(m, "body_text", JStr("")) == pr.bodyText
      && Get(m, "additions") == pr.additions
  {
  }

  lemma ReadBackDeletionsComments(pr: PullRequest)
    ensures var m := Serialize(pr);
      && Get(m, "deletions") == pr.deletions
      && Get(m, "comments") == pr.comments
      && Get(m, "comments_url") == pr.commentsUrl
  {
  }

  lemma ReadBackCommitsDiff(pr: PullRequest)
    ensures var m := Serialize(pr);
      && Get(m, "commits") == pr.commits
      && Get(m, "commits_url") == pr.commitsUrl
      && Get(m, "diff_url") == pr.diffUrl
  {
  }

  lemma ReadBackHeadHtmlId(pr: PullRequest)
    ensures var m := Serialize(pr);
      && Get(m, "head") == DestinationJson(pr.head)
      && Get(m, "html_url") == pr.htmlUrl
      && Get(m, "id") == pr.id
  {
  }

  lemma ReadBackLabelsIssueStatuses(pr: PullRequest)
    ensures var m := Serialize(pr);
      && Get(m, "labels_url") == OptionJson(pr.labelsTemplate)
      && Get(m, "issue_url") == JStr(pr.issueUrl)
      && Get(m, "statuses_url") == pr.statusesUrl
  {
  }

  lemma ReadBackMergeability(pr: PullRequest)
    ensures var m := Serialize(pr);
      && GetOr(m, "mergeable", JBool(false)) == pr.mergeable
      && GetOr(m, "mergeable_state", JStr("")) == pr.mergeableState
      && GetOr(m, "merge_commit_sha", JStr("")) == pr.mergeCommitSha
  {
  }

  lemma ReadBackMergedByNumberPatch(pr: PullRequest)
    ensures var m := Serialize(pr);
      && Get(m, "merged_by") == OptionJson(pr.mergedBy)
      && Get(m, "number") == pr.number
      && Get(m, "patch_url") == pr.patchUrl
  {
  }

  lemma ReadBackReviewComments(pr: PullRequest)
    ensures var m := Serialize(pr);
      && Get(m, "review_comment_url") == OptionJson(pr.reviewCommentTemplate)
      && Get(m, "review_comments") == pr.reviewComments
      && Get(m, "review_comments_url") == pr.reviewCommentsUrl
  {
  }

  lemma ReadBackStateTitleUser(pr: PullRequest)
    ensures var m := Serialize(pr);
      && Get(m, "state") == pr.state
      && Get(m, "title") == pr.title
      && Get(m, "user") == SlotJson(pr.user)
  {
  }

  lemma ReadBackAssignee(pr: PullRequest)
    ensures var m := Serialize(pr);
      && Get(m, "assignee") == SlotJson(pr.assignee)
  {
  }
}

=== FILE: records.dfy ===
/** The passive records a pull request is made of: the two merge
    destinations (base and head), the files it touches and its inline review
    comments. Each is decoded from a JSON object field by field; each also has
    the JSON shape it is decoded from, and decoding that shape gives the
    record back.
 */
module Records {
  import opened JsonModel

  /** One side of the merge. `user` holds the nested user object when it is
      truthy; `repo` is the pair (owner login, repository name). */
  datatype PullDestination = PullDestination(
    direction: string,
    ref: Json,
    labelText: Json,
    user: Option<Json>,
    sha: Json,
    repo: (Json, Json))

  /** The repository pair of a destination that names no repository. */
  const NoRepo: (Json, Json) := (JStr(""), JStr(""))

  /** The `(owner, name)` pair read from a destination's `repo` value: the
      name is read first, then the owner's login, so a missing `owner` or a
      non-object repository or owner raises. */
  function RepoPair(repo: Json): (r: Result<(Json, Json)>)
    ensures !Truthy(repo) ==> r == Ok(NoRepo)
    ensures Truthy(repo) && !repo.JObj? ==> r == Err(AttributeError("get"))
    ensures Truthy(repo) && repo.JObj? && "owner" !in repo.fields ==> r == Err(KeyError("owner"))
    ensures Truthy(repo) && repo.JObj? && "owner" in repo.fields && !repo.fields["owner"].JObj? ==>
              r == Err(AttributeError("get"))
    ensures Truthy(repo) ==>
              (r.Ok? <==> repo.JObj? && "owner" in repo.fields && repo.fields["owner"].JObj?)
    ensures Truthy(repo) && r.Ok? ==>
              r.value.0 == Get(repo.fields["owner"].fields, "login") &&
              r.value.1 == Get(repo.fields, "name")
  {
    if !Truthy(repo) then Ok(NoRepo)
    else if !repo.JObj? then Err(AttributeError("get"))
    else
      var name := Get(repo.fields, "name");
      if "owner" !in repo.fields then Err(KeyError("owner"))
      else
        var owner := repo.fields["owner"];
        if !owner.JObj? then Err(AttributeError("get"))
        else Ok((Get(owner.fields, "login"), name))
  }

  /** Builds a destination from the value found under `base` or `head`,
      which must be an object. */
  function Destination(dest: Json, direction: string): (r: Result<PullDestination>)
    ensures !dest.JObj? ==> r == Err(AttributeError("get"))
    ensures dest.JObj? ==> (r.Ok? <==> RepoPair(Get(dest.fields, "repo")).Ok?)
    ensures r.Ok? ==> r.value.direction == direction
    ensures r.Ok? ==> (r.value.user.None? <==> !Truthy(Get(dest.fields, "user")))
    ensures r.Ok? && !Truthy(Get(dest.fields, "repo")) ==> r.value.repo == NoRepo
    ensures r.Ok? ==> r.value.repo == RepoPair(Get(dest.fields, "repo")).value
    ensures r.Ok? && r.value.user.Some? ==> r.value.user.value == Get(dest.fields, "user")
    ensures r.Ok? ==>
              && r.value.ref == Get(dest.fields, "ref")
              && r.value.labelText == Get(dest.fields, "label")
              && r.value.sha == Get(dest.fields, "sha")
  {
    if !dest.JObj? then Err(AttributeError("get"))
    else
      var m := dest.fields;
      var repo :- RepoPair(Get(m, "repo"));
      Ok(PullDestination(direction, Get(m, "ref"), Get(m, "label"),
                         IfTruthy(Get(m, "user")), Get(m, "sha"), repo))
  }

  /** The `repo` value a pair is read back from. */
  function RepoJson(repo: (Json, Json)): Json {
    if repo == NoRepo then JNull
    else JObj(map["name" := repo.1, "owner" := JObj(map["login" := repo.0])])
  }

  /** The JSON object a destination is decoded from. */
  function DestinationJson(d: PullDestination): Json {
    JObj(map[
      "ref" := d.ref,
      "label" := d.labelText,
      "user" := OptionJson(d.user),
      "sha" := d.sha,
      "repo" := RepoJson(d.repo)])
  }

  /** What every decoded destination satisfies. */
  predicate ValidDestination(d: PullDestination, direction: string) {
    d.direction == direction && TruthyIfPresent(d.user)
  }

  lemma DestinationIsValid(dest: Json, direction: string)
    ensures Destination(dest, direction).Ok? ==>
              ValidDestination(Destination(dest, direction).value, direction)
  {
  }

  /** Decoding a destination's own JSON gives the destination back. */
  lemma DestinationRoundTrip(d: PullDestination)
    requires ValidDestination(d, d.direction)
    ensures Destination(DestinationJson(d), d.direction) == Ok(d)
  {
    var m := DestinationJson(d).fields;
    assert Get(m, "ref") == d.ref && Get(m, "label") == d.labelText && Get(m, "sha") == d.sha;
    assert Get(m, "user") == OptionJson(d.user);
    assert Get(m, "repo") == RepoJson(d.repo);
    IfTruthyInverse(d.user);
    RepoRoundTrip(d.repo);
  }

  /** Reading a pair back from its own `repo` value gives the pair. */
  lemma RepoRoundTrip(repo: (Json, Json))
    ensures RepoPair(RepoJson(repo)) == Ok(repo)
  {
    if repo != NoRepo {
      var owner := map["login" := repo.0];
      var fields := map["name" := repo.1, "owner" := JObj(owner)];
      assert RepoJson(repo) == JObj(fields);
      assert "name" in fields && Truthy(JObj(fields));
      assert "owner" in fields && fields["owner"] == JObj(owner);
      assert Get(fields, "name") == repo.1;
      assert Get(owner, "login") == repo.0;
      assert (repo.0, repo.1) == repo;
    }
  }

  /** One file touched by a pull request. */
  datatype PullFile = PullFile(
    sha: Json,
    filename: Json,
    status: Json,
    additions: Json,
    deletions: Json,
    changes: Json,
    blobUrl: Json,
    rawUrl: Json,
    patch: Json)

  /** The keys a file entry is read from. */
  const FileKeys: set<string> :=
    {"sha", "filename", "status", "additions", "deletions", "changes", "blob_url", "raw_url", "patch"}

  function FileOf(m: JsonMap): PullFile {
    PullFile(Get(m, "sha"), Get(m, "filename"), Get(m, "status"),
             Get(m, "additions"), Get(m, "deletions"), Get(m, "changes"),
             Get(m, "blob_url"), Get(m, "raw_url"), Get(m, "patch"))
  }

  function FileJson(f: PullFile): JsonMap {
    map[
      "sha" := f.sha,
      "filename" := f.filename,
      "status" := f.status,
      "additions" := f.additions,
      "deletions" := f.deletions,
      "changes" := f.changes,
      "blob_url" := f.blobUrl,
      "raw_url" := f.rawUrl,
      "patch" := f.patch]
  }

  /** `v`, or `None` when its key `k` was removed from the JSON. */
  function Dropped(v: Json, k: string, gone: set<string>): Json {
    if k in gone then JNull else v
  }

  /** Each key missing from a file entry's JSON reads as `None`; the others
      keep their values. */
  lemma FileOfMissingKeys(f: PullFile, gone: set<string>)
    ensures FileOf(FileJson(f) - gone) ==
              PullFile(Dropped(f.sha, "sha", gone), Dropped(f.filename, "filename", gone),
                       Dropped(f.status, "status", gone), Dropped(f.additions, "additions", gone),
                       Dropped(f.deletions, "deletions", gone), Dropped(f.changes, "changes", gone),
                       Dropped(f.blobUrl, "blob_url", gone), Dropped(f.rawUrl, "raw_url", gone),
                       Dropped(f.patch, "patch", gone))
  {
  }

  /** Every file entry is its own JSON decoded. */
  lemma FileRoundTrip(f: PullFile)
    ensures FileOf(FileJson(f)) == f
  {
  }

  /** The keys a file entry is written under are exactly those it is read
      from. */
  lemma FileJsonKeys(f: PullFile)
    ensures FileJson(f).Keys == FileKeys
  {
  }

  /** A file entry depends only on the nine keys it is read from: any other
      key in the JSON object is ignored. */
  lemma FileOfReadsOnlyFileKeys(m: JsonMap)
    ensures FileOf(m) == FileOf(map k | k in m && k in FileKeys :: m[k])
  {
  }

  /** An inline review comment. `position` is never `None`: a falsy
      position is replaced by 0. */
  datatype ReviewComment = ReviewComment(
    user: Option<Json>,
    originalPosition: Json,
    path: Json,
    position: Json,
    commitId: Json,
    diffHunk: Json,
    originalCommitId: Json)

  function CommentOf(m: JsonMap): (c: ReviewComment)
    ensures Truthy(c.position) || c.position == JInt(0)
    ensures !Truthy(Get(m, "position")) ==> c.position == JInt(0)
    ensures Truthy(Get(m, "position")) ==> c.position == m["position"]
    ensures c.user.None? <==> !Truthy(Get(m, "user"))
    ensures c.user.Some? ==> c.user.value == m["user"]
    ensures && c.originalPosition == Get(m, "original_position")
            && c.path == Get(m, "path")
            && c.commitId == Get(m, "commit_id")
            && c.diffHunk == Get(m, "diff_hunk")
            && c.originalCommitId == Get(m, "original_commit_id")
  {
    var position := Get(m, "position");
    ReviewComment(
      IfTruthy(Get(m, "user")),
      Get(m, "original_position"),
      Get(m, "path"),
      if Truthy(position) then position else JInt(0),
      Get(m, "commit_id"),
      Get(m, "diff_hunk"),
      Get(m, "original_commit_id"))
  }

  function CommentJson(c: ReviewComment): JsonMap {
    map[
      "user" := OptionJson(c.user),
      "original_position" := c.originalPosition,
      "path" := c.path,
      "position" := c.position,
      "commit_id" := c.commitId,
      "diff_hunk" := c.diffHunk,
      "original_commit_id" := c.originalCommitId]
  }

  predicate ValidComment(c: ReviewComment) {
    TruthyIfPresent(c.user) && (Truthy(c.position) || c.position == JInt(0))
  }

  /** Each key missing from a review comment's JSON reads as `None`, except
      that a missing user is no user and a missing position is 0; the other
      fields keep their values. */
  lemma CommentOfMissingKeys(c: ReviewComment, gone: set<string>)
    requires ValidComment(c)
    ensures CommentOf(CommentJson(c) - gone) ==
              ReviewComment(if "user" in gone then None else c.user,
                            Dropped(c.originalPosition, "original_position", gone),
                            Dropped(c.path, "path", gone),
                            if "position" in gone then JInt(0) else c.position,
                            Dropped(c.commitId, "commit_id", gone),
                            Dropped(c.diffHunk, "diff_hunk", gone),
                            Dropped(c.originalCommitId, "original_commit_id", gone))
  {
    IfTruthyInverse(c.user);
  }

  /** Decoding a comment's own JSON gives the comment back. */
  lemma CommentRoundTrip(c: ReviewComment)
    requires ValidComment(c)
    ensures CommentOf(CommentJson(c)) == c
  {
    IfTruthyInverse(c.user);
  }
}
